=== FILE: README.md ===
# Produto CRUD service — Dafny model

A model of the logic inside a Spring Boot CRUD service for one entity,
`Produto` (a product with a name, an NCM tariff code, an optional NCM
description, a price and a stock quantity). Four pieces are modelled:

- **Validation** (`validation.dfy`): the Jakarta Bean Validation constraints
  that `ProdutoRequest` declares (`@NotBlank`, `@Size`, `@Pattern`,
  `@NotNull`, `@DecimalMin`, `@Min`). `Violations` lists every violated
  constraint, field by field. `Valid` states the same rules independently,
  one predicate per field. As in Bean Validation, every constraint except
  `@NotNull` and `@NotBlank` accepts null.
- **Mapper** (`mapper.dfy`): `ToEntity` and `ToResponse`, two total
  field-copy functions. `Payload` and `ResponsePayload` read the five
  payload fields back, which gives the round-trip lemmas.
- **Service** (`service.dfy`): `criar`, `listar`, `buscarPorId`, `atualizar`
  and `deletar` over a store modelled as `map<int, Produto>`. Each operation
  returns its result together with the store after the call. A thrown
  `RuntimeException` is a `Failure`.
- **Controller** (`controller.dfy`): the five handler bodies as pure
  compositions of mapper and service, returning a status, an optional
  `Location` and a body. POST's `@Valid` rejects an invalid body before the
  handler runs. Service failures propagate uncaught.

Supporting modules: `wrappers.dfy` (`Option` for nullable references,
`Result`), `types.dfy` (the entity, request and response datatypes; `preco`
is an exact `real`) and `decimal.dfy` (the decimal text Java produces when a
`Long` id is concatenated to a string, with a parser that reads it back).

The `Produto` entity class is not part of this model. Its six fields
(`id, nome, ncm, descricaoNcm, preco, quantidade`) are inferred from the
mapper's getters and setters.

Three behaviours of the code are worth stating plainly:
- PUT has no `@Valid`, so an invalid payload reaches `atualizar` and is
  stored (`Controller.AtualizarStoresInvalidPayload`). POST and DELETE keep
  a store whose records all satisfy the constraints in that state
  (`Controller.CriarKeepsStoreValid`, `Controller.DeletarKeepsStoreValid`).
- "Not found" is a plain `RuntimeException` whose only distinguishing mark
  is its message. It is labelled `ServiceError.NotFound(id)` here;
  `Service.NotFoundMessage` gives the exact text and
  `Service.NotFoundMessageNamesId` shows the text names the id.
- `toEntity` leaves the id null, which is `None` here (`Mapper.ToEntity`).

## Model

| member | source | states |
|---|---|---|
| Validation.HasNonWhitespace | src/main/java/br/com/casasbahia/crud_h2/controller/dto/ProdutoRequest.java:7 | the not-blank scan is true iff some character of the string is not whitespace |
| Validation.MatchesDigits | src/main/java/br/com/casasbahia/crud_h2/controller/dto/ProdutoRequest.java:12 | the whole string matches `\d{n}` iff it has exactly n characters and every one is a decimal digit |
| Validation.FieldViolations | src/main/java/br/com/casasbahia/crud_h2/controller/dto/ProdutoRequest.java:7-24 | a field's annotations report exactly the constraints of that field the value breaks (a null value breaks only NotNull/NotBlank), and report none iff the field satisfies its rule |
| Validation.Violations | src/main/java/br/com/casasbahia/crud_h2/controller/dto/ProdutoRequest.java:7-24 | a constraint is listed iff the request breaks it, one entry per broken constraint; the list is empty iff all five field rules hold |
| Validation.NullNomeHasOneViolation | src/main/java/br/com/casasbahia/crud_h2/controller/dto/ProdutoRequest.java:7-9 | a null nome gives only the not-blank violation, because the size constraint accepts null |
| Validation.FieldIndependence | src/main/java/br/com/casasbahia/crud_h2/controller/dto/ProdutoRequest.java:7-24 | changing one field of a request leaves the violations of every other field as they were |
| Validation.MessagesDistinct | src/main/java/br/com/casasbahia/crud_h2/controller/dto/ProdutoRequest.java:7-23 | each violated constraint contributes its own message: two violations share a message iff they are the same |
| Validation.NomeExamples | src/main/java/br/com/casasbahia/crud_h2/controller/dto/ProdutoRequest.java:7-9 | nome is required, must not be blank and has 3 to 100 characters: "ab", null and "   " fail, "abc" passes |
| Validation.BlankShortNomeHasTwoViolations | src/main/java/br/com/casasbahia/crud_h2/controller/dto/ProdutoRequest.java:7-9 | a blank two-character nome violates both the not-blank and the size constraint |
| Validation.NcmExamples | src/main/java/br/com/casasbahia/crud_h2/controller/dto/ProdutoRequest.java:11-13 | ncm must be exactly eight decimal digits: "123" and "1234567a" fail, "84713012" passes |
| Validation.EightDigitsAreNotBlank | src/main/java/br/com/casasbahia/crud_h2/controller/dto/ProdutoRequest.java:11-13 | any string matching the eight-digit pattern also passes the not-blank check |
| Validation.DescricaoNcmExamples | src/main/java/br/com/casasbahia/crud_h2/controller/dto/ProdutoRequest.java:15-16 | descricaoNcm is optional; a present value is valid iff it has at most 255 characters, the empty string included |
| Validation.PrecoExamples | src/main/java/br/com/casasbahia/crud_h2/controller/dto/ProdutoRequest.java:18-20 | preco is required and the 0.01 minimum is inclusive: null, 0 and 0.009 fail, 0.01 passes |
| Validation.QuantidadeExamples | src/main/java/br/com/casasbahia/crud_h2/controller/dto/ProdutoRequest.java:22-24 | quantidade is required and not negative: null and -1 fail, 0 passes |
| Mapper.ToEntity | src/main/java/br/com/casasbahia/crud_h2/controller/mapper/ProdutoMapper.java:11-19 | the new entity has no id and carries the request's five fields unchanged, absent values staying absent |
| Mapper.ToResponse | src/main/java/br/com/casasbahia/crud_h2/controller/mapper/ProdutoMapper.java:21-30 | the response carries all six fields of the entity, id included |
| Mapper.RequestRoundTrip | src/main/java/br/com/casasbahia/crud_h2/controller/mapper/ProdutoMapper.java:11-30 | request to entity to response gives back the request's five fields and no id |
| Mapper.PayloadInvertsToEntity | src/main/java/br/com/casasbahia/crud_h2/controller/mapper/ProdutoMapper.java:11-19 | reading the payload of an entity and mapping it back recovers the entity except for its id |
| Mapper.ToResponseInjective | src/main/java/br/com/casasbahia/crud_h2/controller/mapper/ProdutoMapper.java:21-30 | two entities give the same response iff they are equal |
| Decimal.IntStringRoundTrip | src/main/java/br/com/casasbahia/crud_h2/service/ProdutoService.java:26 | the decimal text of an id, as concatenated into messages, parses back to that id |
| Decimal.IntStringInjective | src/main/java/br/com/casasbahia/crud_h2/controller/ProdutoController.java:41 | two ids have the same decimal text iff they are equal |
| Service.NotFoundMessage | src/main/java/br/com/casasbahia/crud_h2/service/ProdutoService.java:26 | the not-found message is the fixed prefix followed by decimal text that parses back to the id |
| Service.NotFoundMessageNamesId | src/main/java/br/com/casasbahia/crud_h2/service/ProdutoService.java:26 | two not-found messages are equal iff they are for the same id |
| Service.Save | src/main/java/br/com/casasbahia/crud_h2/service/ProdutoService.java:16-18 | save writes the entity under its own id, or under the store-generated id when it has none; the stored copy carries its key and no other key changes |
| Service.Criar | src/main/java/br/com/casasbahia/crud_h2/service/ProdutoService.java:16-18 | criar performs no check of its own, so with a store that does not fail it always succeeds and stores the product, fields unchanged, under its new id; it keeps every record stored under its own key |
| Service.CriarAddsOneRecord | src/main/java/br/com/casasbahia/crud_h2/service/ProdutoService.java:16-18 | given an unused generated id, criar adds exactly that key and leaves every other record untouched |
| Service.Listar | src/main/java/br/com/casasbahia/crud_h2/service/ProdutoService.java:20-22 | listar returns as many products as the store holds, the product under each key at that key's place in the store's order, so every stored product and nothing else, and leaves the store unchanged |
| Service.EnumerationLength | src/main/java/br/com/casasbahia/crud_h2/service/ProdutoService.java:20-22 | an order that lists each stored key exactly once is as long as the store |
| Service.BuscarPorId | src/main/java/br/com/casasbahia/crud_h2/service/ProdutoService.java:24-27 | buscarPorId succeeds iff the id is stored, returning that product, fails with not-found for that id otherwise, and never changes the store |
| Service.Atualizar | src/main/java/br/com/casasbahia/crud_h2/service/ProdutoService.java:29-34 | atualizar succeeds iff the product's id is stored; on failure the store is unchanged; on success the record under that id is replaced, the key set is unchanged and no other record changes |
| Service.Deletar | src/main/java/br/com/casasbahia/crud_h2/service/ProdutoService.java:36-41 | deletar succeeds iff the id is stored; on failure the store is unchanged; on success exactly that key is removed |
| Service.CriarThenBuscar | src/main/java/br/com/casasbahia/crud_h2/service/ProdutoService.java:16-27 | after criar, buscarPorId of the new id returns the created product with that id |
| Service.CriarThenListar | src/main/java/br/com/casasbahia/crud_h2/service/ProdutoService.java:16-22 | after criar with an unused id, listar returns one more product: the new one and every earlier one |
| Service.AtualizarThenBuscar | src/main/java/br/com/casasbahia/crud_h2/service/ProdutoService.java:24-34 | after a successful atualizar, buscarPorId of that id returns the new fields under the same id |
| Service.DeletarThenBuscar | src/main/java/br/com/casasbahia/crud_h2/service/ProdutoService.java:24-41 | after a successful deletar, buscarPorId of that id fails with not-found |
| Controller.Respond | src/main/java/br/com/casasbahia/crud_h2/controller/ProdutoController.java:37-101 | a handler replies only when the service call succeeds; a service failure reaches the caller unchanged and the store is the one the service left |
| Controller.Criar | src/main/java/br/com/casasbahia/crud_h2/controller/ProdutoController.java:36-43 | POST replies iff the body is valid: 201, Location "/api/produtos/" plus the new id, a body with the new id and the request's fields; an invalid body is rejected with its violations and stores nothing |
| Controller.Listar | src/main/java/br/com/casasbahia/crud_h2/controller/ProdutoController.java:48-55 | GET-all replies 200 with no Location and one response per listed product, same length and order, element i mapped from product i |
| Controller.BuscarPorId | src/main/java/br/com/casasbahia/crud_h2/controller/ProdutoController.java:64-70 | GET by id replies 200 with the stored product's response iff it is stored, otherwise lets not-found through |
| Controller.Atualizar | src/main/java/br/com/casasbahia/crud_h2/controller/ProdutoController.java:79-88 | PUT succeeds iff the path id is stored, whatever the body; the reply is 200 with no Location, its id is the path id and its fields are the request's |
| Controller.Deletar | src/main/java/br/com/casasbahia/crud_h2/controller/ProdutoController.java:97-102 | DELETE replies 204 with an empty body iff the id was stored, and removes it; otherwise not-found passes through and the store is unchanged |
| Controller.CriarKeepsStoreValid | src/main/java/br/com/casasbahia/crud_h2/controller/ProdutoController.java:37-42 | POST keeps a store whose records all satisfy the constraints in that state |
| Controller.DeletarKeepsStoreValid | src/main/java/br/com/casasbahia/crud_h2/controller/ProdutoController.java:97-101 | DELETE keeps a store whose records all satisfy the constraints in that state |
| Controller.AtualizarStoresInvalidPayload | src/main/java/br/com/casasbahia/crud_h2/controller/ProdutoController.java:82-85 | PUT does not validate: an invalid body for a stored id succeeds and leaves an invalid record in the store |
| Controller.NotebookScenario | src/main/java/br/com/casasbahia/crud_h2/controller/ProdutoController.java:37-101 | on an empty store, POST of a valid notebook gives 201 with id 1, GET gives it back, DELETE gives 204 and a second GET fails with not-found |

## Left out

- Persistence: the JPA repository and the H2 database are a `map<int, Produto>`. Id generation is not modelled: the id the store generates is a parameter of `Criar`. JPA merge semantics, transactions and SQL are not modelled.
- Service.Save: an entity that already has an id is written under that id, inserted or overwritten. How JPA merges such an entity is not modelled.
- Service.Listar: the store's `findAll` order is a parameter, a list of the stored keys each appearing once. The contract promises no particular order, because the store promises none.
- The null id: `atualizar` with a null id fails with `NullId`, standing for the store's refusal of a null id. Its message is not modelled. No handler can produce it, since the path id is never null.
- Service.BuscarPorId: takes a non-null id, so the exception `findById(null)` throws for a null id is not modelled. No handler can pass a null id.
- Service.Deletar: takes a non-null id, so the exception `existsById(null)` throws for a null id is not modelled. No handler can pass a null id.
- Store failures: the store never fails in the model. Connectivity or constraint errors thrown by `save`, `findById`, `findAll`, `existsById` or `deleteById` would propagate uncaught through the service and the handlers; they are not modelled, so `Service.Criar` and `Service.Listar` always succeed.
- HTTP plumbing: routing, JSON (de)serialisation and `URI.create` are left out. How the framework turns a rejected body or a thrown exception into a status code (400, 404 or 500) is also left out. Handlers return such failures as `HandlerError` values.
- Documentation: `SwaggerConfig` and every `@Operation`, `@ApiResponse` and `@Schema` annotation are documentation metadata only.
- `ProdutoResponse` is a Lombok data holder with no logic. It is only a datatype here.
- Concurrency: the exists-then-save and exists-then-delete races and connection pooling are left out.
- Numbers: `preco` is an exact `real`, so `BigDecimal` scale and precision are not modelled. `quantidade` (32-bit `Integer`) and `id` (64-bit `Long`) are unbounded integers. The code only compares and prints them, and out-of-range values are rejected before a handler runs: `quantidade` by JSON deserialisation and the path `id` by path-variable conversion; ids the store generates are in range.
- Strings: `@Size` counts UTF-16 code units, while the model counts characters. The two differ only for characters outside the Basic Multilingual Plane.
- Validation.IsWhitespace: the whitespace set for `@NotBlank` is fixed to the code points up to U+0020. Those are what `String.trim` strips. The lemmas use that space is whitespace and that letters and digits are not.
- Validation.Violations: Bean Validation reports violations as an unordered set. The model lists them in declaration order; which constraints are listed is stated exactly, the order is not.

=== FILE: controller.dfy ===
/** ProdutoController's handler bodies as pure compositions of the mapper and
    the service. A handler either replies (status, Location, body) or lets a
    failure through: POST's @Valid rejects an invalid body before the handler
    runs, and every service failure propagates uncaught. */
module Controller {
  import opened Wrappers
  import opened Types
  import Decimal
  import Validation
  import Mapper
  import Service

  const Ok := 200
  const Created := 201
  const NoContent := 204

  const LocationPrefix := "/api/produtos/"

  datatype Reply<+B> = Reply(status: int, location: Option<string>, body: B)

  /** A request that does not produce a reply: the body failed @Valid, or the
      service threw. */
  datatype HandlerError =
    | Rejected(violations: seq<Validation.Violation>)
    | Thrown(cause: Service.ServiceError)

  datatype Handled<+B> = Handled(result: Result<Reply<B>, HandlerError>, store: Service.Store)

  /** Text of a nullable Long in a string concatenation. */
  function IdText(id: Option<int>): string {
    if id.None? then "null" else Decimal.IntString(id.value)
  }

  /** Reply from a successful service call; pass a failure through untouched. */
  function Respond<T, B>(st: Service.Step<T>, render: T -> Reply<B>): (h: Handled<B>)
    ensures h.store == st.store
    ensures st.result.Failure? ==> h.result == Failure(Thrown(st.result.error))
    ensures st.result.Success? ==> h.result == Success(render(st.result.value))
  {
    match st.result
    case Success(v) => Handled(Success(render(v)), st.store)
    case Failure(e) => Handled(Failure(Thrown(e)), st.store)
  }

  /** POST /api/produtos with a body that passed @Valid: save it and reply
      201 with its Location. */
  function Criar(s: Service.Store, req: ProdutoRequest, generated: int): (h: Handled<ProdutoResponse>)
    ensures h.result.Success? <==> Validation.Valid(req)
    ensures h.result.Failure? ==> h.result.error == Rejected(Validation.Violations(req)) && h.store == s
    ensures h.result.Success? ==>
      && h.result.value.status == Created
      && h.result.value.location == Some(LocationPrefix + Decimal.IntString(generated))
      && h.result.value.body.id == Some(generated)
      && Mapper.ResponsePayload(h.result.value.body) == req
      && h.store == s[generated := Mapper.ToEntity(req).(id := Some(generated))]
  {
    if !Validation.Valid(req) then
      Handled(Failure(Rejected(Validation.Violations(req))), s)
    else
      Respond(Service.Criar(s, Mapper.ToEntity(req), generated),
        (saved: Produto) => Reply(Created, Some(LocationPrefix + IdText(saved.id)), Mapper.ToResponse(saved)))
  }

  /** GET /api/produtos: every entity mapped to a response, in list order. */
  function Listar(s: Service.Store, order: seq<int>): (h: Handled<seq<ProdutoResponse>>)
    requires Service.Enumerates(order, s)
    ensures h.store == s && h.result.Success? && h.result.value.status == Ok
    ensures h.result.value.location == None
    ensures var all := Service.Listar(s, order).result.value;
      && |h.result.value.body| == |all| == |s|
      && forall i :: 0 <= i < |all| ==> h.result.value.body[i] == Mapper.ToResponse(all[i])
  {
    Respond(Service.Listar(s, order),
      (all: seq<Produto>) => Reply(Ok, None, seq(|all|, i requires 0 <= i < |all| => Mapper.ToResponse(all[i]))))
  }

  /** GET /api/produtos/{id}. */
  function BuscarPorId(s: Service.Store, id: int): (h: Handled<ProdutoResponse>)
    ensures h.store == s
    ensures h.result.Success? <==> id in s
    ensures h.result.Success? ==> h.result.value == Reply(Ok, None, Mapper.ToResponse(s[id]))
    ensures h.result.Failure? ==> h.result.error == Thrown(Service.NotFound(id))
  {
    Respond(Service.BuscarPorId(s, id), (p: Produto) => Reply(Ok, None, Mapper.ToResponse(p)))
  }

  /** PUT /api/produtos/{id}: the body is not validated, and the path id
      replaces whatever id the entity would carry. */
  function Atualizar(s: Service.Store, id: int, req: ProdutoRequest): (h: Handled<ProdutoResponse>)
    ensures h.result.Success? <==> id in s
    ensures h.result.Failure? ==> h.result.error == Thrown(Service.NotFound(id)) && h.store == s
    ensures h.result.Success? ==>
      && h.result.value.status == Ok
      && h.result.value.location == None
      && h.result.value.body.id == Some(id)
      && Mapper.ResponsePayload(h.result.value.body) == req
      && h.store == s[id := Mapper.ToEntity(req).(id := Some(id))]
  {
    var produto := Mapper.ToEntity(req).(id := Some(id));
    Respond(Service.Atualizar(s, produto), (p: Produto) => Reply(Ok, None, Mapper.ToResponse(p)))
  }

  /** DELETE /api/produtos/{id}: 204 with no body. */
  function Deletar(s: Service.Store, id: int): (h: Handled<()>)
    ensures h.result.Success? <==> id in s
    ensures h.result.Success? ==> h.result.value == Reply(NoContent, None, ()) && h.store == s - {id}
    ensures h.result.Failure? ==> h.result.error == Thrown(Service.NotFound(id)) && h.store == s
  {
    Respond(Service.Deletar(s, id), (u: ()) => Reply(NoContent, None, ()))
  }

  /** Every stored record satisfies the request constraints. */
  ghost predicate AllValid(s: Service.Store) {
    forall k :: k in s ==> Validation.Valid(Mapper.Payload(s[k]))
  }

  /** POST only stores a payload that passed @Valid, so it keeps the store valid. */
  lemma CriarKeepsStoreValid(s: Service.Store, req: ProdutoRequest, generated: int)
    requires AllValid(s)
    ensures AllValid(Criar(s, req, generated).store)
  {
  }

  /** DELETE keeps the store valid. */
  lemma DeletarKeepsStoreValid(s: Service.Store, id: int)
    requires AllValid(s)
    ensures AllValid(Deletar(s, id).store)
  {
  }

  /** PUT has no @Valid: an invalid payload for an existing id is stored, so a
      store whose records were all valid can end up holding an invalid one. */
  lemma AtualizarStoresInvalidPayload(s: Service.Store, id: int, req: ProdutoRequest)
    requires id in s && !Validation.Valid(req)
    ensures Atualizar(s, id, req).result.Success?
    ensures !AllValid(Atualizar(s, id, req).store)
  {
    var after := Atualizar(s, id, req).store;
    assert Mapper.Payload(after[id]) == req;
  }

  /** Create, fetch, delete, fetch again, on an empty store whose first
      generated id is 1. */
  lemma NotebookScenario()
    ensures
      var req := ProdutoRequest(Some("Notebook Dell"), Some("84713012"), None, Some(2999.99), Some(10));
      var stored := ProdutoResponse(Some(1), Some("Notebook Dell"), Some("84713012"), None, Some(2999.99), Some(10));
      var post := Criar(map[], req, 1);
      var get := BuscarPorId(post.store, 1);
      var del := Deletar(get.store, 1);
      var again := BuscarPorId(del.store, 1);
      && post.result == Success(Reply(Created, Some("/api/produtos/1"), stored))
      && get.result == Success(Reply(Ok, None, stored))
      && del.result == Success(Reply(NoContent, None, ()))
      && again.result == Failure(Thrown(Service.NotFound(1)))
      && again.store == map[]
  {
    var req := ProdutoRequest(Some("Notebook Dell"), Some("84713012"), None, Some(2999.99), Some(10));
    assert !Validation.IsWhitespace(req.nome.value[0]);
    assert Validation.Valid(req);
    assert Decimal.IntString(1) == "1";
    var post := Criar(map[], req, 1);
    assert post.store == map[1 := Mapper.ToEntity(req).(id := Some(1))];
    var get := BuscarPorId(post.store, 1);
    assert get.store == post.store;
    var del := Deletar(get.store, 1);
    assert del.store == map[];
    var stored := ProdutoResponse(Some(1), Some("Notebook Dell"), Some("84713012"), None, Some(2999.99), Some(10));
    assert LocationPrefix + Decimal.IntString(1) == "/api/produtos/1";
    assert post.result.value.body == stored;
    assert post.result == Success(Reply(Created, Some("/api/produtos/1"), stored));
    assert get.result == Success(Reply(Ok, None, stored));
    assert del.result == Success(Reply(NoContent, None, ()));
    var again := BuscarPorId(del.store, 1);
    assert again.result == Failure(Thrown(Service.NotFound(1)));
  }
}

=== FILE: decimal.dfy ===
/** Decimal text of an integer, as Java renders a Long when it is
    concatenated to a string: an optional minus sign, then digits without
    leading zeros. The parser is its partner: it recovers the number. */
module Decimal {

  predicate IsDigit(c: char) {
    '0' <= c <= '9'
  }

  predicate AllDigits(s: string) {
    forall i :: 0 <= i < |s| ==> IsDigit(s[i])
  }

  function DigitValue(c: char): (d: nat)
    requires IsDigit(c)
    ensures d < 10
  {
    c as int - '0' as int
  }

  function DigitChar(d: nat): (c: char)
    requires d < 10
    ensures IsDigit(c) && DigitValue(c) == d
  {
    ('0' as int + d) as char
  }

  /** Digits of a natural number, most significant first. */
  function NatString(n: nat): (s: string)
    ensures |s| > 0 && AllDigits(s)
    ensures s[0] == '0' ==> n == 0
    decreases n
  {
    if n < 10 then [DigitChar(n)] else NatString(n / 10) + [DigitChar(n % 10)]
  }

  /** Long.toString(n). */
  function IntString(n: int): (s: string)
    ensures |s| > 0
    ensures s[0] == '-' <==> n < 0
  {
    if n < 0 then "-" + NatString(-n) else NatString(n)
  }

  /** Optional minus sign followed by at least one digit. */
  predicate IsDecimal(s: string) {
    || (|s| > 0 && AllDigits(s))
    || (|s| > 1 && s[0] == '-' && AllDigits(s[1..]))
  }

  function ParseNat(s: string): nat
    requires AllDigits(s)
    decreases |s|
  {
    if |s| == 0 then 0 else 10 * ParseNat(s[..|s| - 1]) + DigitValue(s[|s| - 1])
  }

  function ParseInt(s: string): int
    requires IsDecimal(s)
  {
    if s[0] == '-' then 0 - ParseNat(s[1..]) else ParseNat(s)
  }

  lemma {:induction false} ParseNatString(n: nat)
    ensures ParseNat(NatString(n)) == n
    decreases n
  {
    if n >= 10 {
      var s := NatString(n);
      assert s[..|s| - 1] == NatString(n / 10);
      ParseNatString(n / 10);
    }
  }

  /** The rendered id can be read back: the text identifies the number. */
  lemma IntStringRoundTrip(n: int)
    ensures IsDecimal(IntString(n))
    ensures ParseInt(IntString(n)) == n
  {
    if n < 0 {
      assert IntString(n)[1..] == NatString(-n);
      ParseNatString(-n);
    } else {
      ParseNatString(n);
    }
  }

  /** Different numbers render differently. */
  lemma IntStringInjective(a: int, b: int)
    ensures IntString(a) == IntString(b) <==> a == b
  {
    if IntString(a) == IntString(b) {
      IntStringRoundTrip(a);
      IntStringRoundTrip(b);
    }
  }
}

=== FILE: mapper.dfy ===
/** The two field-copy functions between the wire shapes and the entity.
    Both are total: no precondition and no error path. */
module Mapper {
  import opened Wrappers
  import opened Types

  /** The five payload fields of an entity, as a request would carry them. */
  function Payload(p: Produto): ProdutoRequest {
    ProdutoRequest(p.nome, p.ncm, p.descricaoNcm, p.preco, p.quantidade)
  }

  /** The five payload fields of a response. */
  function ResponsePayload(r: ProdutoResponse): ProdutoRequest {
    ProdutoRequest(r.nome, r.ncm, r.descricaoNcm, r.preco, r.quantidade)
  }

  /** A fresh entity carrying the request's fields; the id is left unset. */
  function ToEntity(dto: ProdutoRequest): (p: Produto)
    ensures p.id == None
    ensures Payload(p) == dto
  {
    Produto(None, dto.nome, dto.ncm, dto.descricaoNcm, dto.preco, dto.quantidade)
  }

  /** A response carrying all six fields of the entity, id included. */
  function ToResponse(p: Produto): (r: ProdutoResponse)
    ensures r.id == p.id
    ensures ResponsePayload(r) == Payload(p)
  {
    ProdutoResponse(p.id, p.nome, p.ncm, p.descricaoNcm, p.preco, p.quantidade)
  }

  /** Request to entity to response keeps the payload and has no id. */
  lemma RequestRoundTrip(dto: ProdutoRequest)
    ensures ToResponse(ToEntity(dto)).id == None
    ensures ResponsePayload(ToResponse(ToEntity(dto))) == dto
  {
  }

  /** Payload is a left inverse of ToEntity, and recovers an entity up to its id. */
  lemma PayloadInvertsToEntity(p: Produto)
    ensures ToEntity(Payload(p)) == p.(id := None)
  {
  }

  /** ToResponse loses nothing: distinct entities give distinct responses. */
  lemma ToResponseInjective(a: Produto, b: Produto)
    ensures ToResponse(a) == ToResponse(b) <==> a == b
  {
  }
}

=== FILE: service.dfy ===
/** ProdutoService over an abstract store. The store is a finite map from id
    to entity; each operation takes the store and returns its result with the
    store after the call. A thrown RuntimeException is a Failure. */
module Service {
  import opened Wrappers
  import opened Types
  import Decimal

  type Store = map<int, Produto>

  /** Why a service call throws. NotFound is the "not found" exception the
      service raises itself; NullId is the store refusing a null id. */
  datatype ServiceError = NotFound(id: int) | NullId

  /** The outcome of one call and the store it leaves behind. */
  datatype Step<+T> = Step(result: Result<T, ServiceError>, store: Store)

  const NotFoundPrefix := "Produto não encontrado com o ID: "

  /** The message of the "not found" exception. */
  function NotFoundMessage(id: int): (m: string)
    ensures |NotFoundPrefix| < |m| && m[..|NotFoundPrefix|] == NotFoundPrefix
    ensures Decimal.IsDecimal(m[|NotFoundPrefix|..]) && Decimal.ParseInt(m[|NotFoundPrefix|..]) == id
  {
    Decimal.IntStringRoundTrip(id);
    assert (NotFoundPrefix + Decimal.IntString(id))[|NotFoundPrefix|..] == Decimal.IntString(id);
    NotFoundPrefix + Decimal.IntString(id)
  }

  /** The message names the id: different ids give different messages. */
  lemma NotFoundMessageNamesId(a: int, b: int)
    ensures NotFoundMessage(a) == NotFoundMessage(b) <==> a == b
  {
    if NotFoundMessage(a) == NotFoundMessage(b) {
      assert NotFoundMessage(a)[|NotFoundPrefix|..] == Decimal.IntString(a);
      assert NotFoundMessage(b)[|NotFoundPrefix|..] == Decimal.IntString(b);
      Decimal.IntStringInjective(a, b);
    }
  }

  /** Every stored entity carries the key it is stored under. */
  predicate WellFormed(s: Store) {
    forall k :: k in s ==> s[k].id == Some(k)
  }

  /** s2 differs from s at most at key k. */
  ghost predicate OnlyKeyChanged(s: Store, s2: Store, k: int) {
    forall j :: j != k ==> (j in s <==> j in s2) && (j in s ==> s[j] == s2[j])
  }

  /** The store's save: an entity with an id is written under that id; one
      without is written under the id the store generates. The stored copy
      carries its key. Id generation itself is not modelled: `generated` is
      whatever the store chose. */
  function Save(s: Store, p: Produto, generated: int): (r: (Produto, Store))
    ensures r.0.id.Some? && r.0.id.value in r.1 && r.1[r.0.id.value] == r.0
    ensures p.id.Some? ==> r.0 == p
    ensures p.id.None? ==> r.0 == p.(id := Some(generated))
    ensures OnlyKeyChanged(s, r.1, r.0.id.value)
    ensures WellFormed(s) ==> WellFormed(r.1)
  {
    var key := if p.id.Some? then p.id.value else generated;
    var saved := p.(id := Some(key));
    (saved, s[key := saved])
  }

  /** criar: exactly one save, with no existence check and no validation. */
  function Criar(s: Store, p: Produto, generated: int): (r: Step<Produto>)
    ensures r.result.Success?
    ensures r.result.value.id.Some? && r.store == s[r.result.value.id.value := r.result.value]
    ensures r.result.value.(id := p.id) == p
    ensures p.id.None? ==> r.result.value.id == Some(generated)
    ensures WellFormed(s) ==> WellFormed(r.store)
  {
    var (saved, s2) := Save(s, p, generated);
    Step(Success(saved), s2)
  }

  /** The store's findAll order: each stored key exactly once. */
  predicate Enumerates(order: seq<int>, s: Store) {
    && (forall i, j :: 0 <= i < j < |order| ==> order[i] != order[j])
    && (forall i :: 0 <= i < |order| ==> order[i] in s)
    && (forall k :: k in s ==> k in order)
  }

  lemma {:induction false} DistinctCardinality(order: seq<int>)
    requires forall i, j :: 0 <= i < j < |order| ==> order[i] != order[j]
    ensures |set k | k in order| == |order|
  {
    if |order| > 0 {
      var rest := order[1..];
      DistinctCardinality(rest);
      assert (set k | k in order) == {order[0]} + (set k | k in rest);
      assert order[0] !in rest;
    }
  }

  lemma EnumerationLength(order: seq<int>, s: Store)
    requires Enumerates(order, s)
    ensures |order| == |s|
  {
    DistinctCardinality(order);
    forall k | k in order
      ensures k in s
    {
      var i :| 0 <= i < |order| && order[i] == k;
    }
    var ks := set k | k in order;
    assert forall k :: k in ks <==> k in s.Keys;
    assert ks == s.Keys;
  }

  /** listar: every stored entity, once each, in the store's order; the
      store is unchanged. */
  function Listar(s: Store, order: seq<int>): (r: Step<seq<Produto>>)
    requires Enumerates(order, s)
    ensures r.store == s && r.result.Success?
    ensures |r.result.value| == |order| == |s|
    ensures forall i :: 0 <= i < |order| ==> r.result.value[i] == s[order[i]]
    ensures forall k :: k in s ==> s[k] in r.result.value
    ensures forall p :: p in r.result.value ==> p in s.Values
  {
    EnumerationLength(order, s);
    var all := seq(|order|, i requires 0 <= i < |order| => s[order[i]]);
    assert forall k :: k in s ==> exists i :: 0 <= i < |order| && order[i] == k && all[i] == s[k];
    Step(Success(all), s)
  }

  /** buscarPorId: the stored entity, or "not found"; the store is unchanged. */
  function BuscarPorId(s: Store, id: int): (r: Step<Produto>)
    ensures r.store == s
    ensures r.result.Success? <==> id in s
    ensures r.result.Success? ==> r.result.value == s[id]
    ensures r.result.Failure? ==> r.result.error == NotFound(id)
  {
    if id in s then Step(Success(s[id]), s) else Step(Failure(NotFound(id)), s)
  }

  /** atualizar: overwrite an existing record wholesale. A null id makes the
      store's existence check throw; an absent id is "not found". */
  function Atualizar(s: Store, p: Produto): (r: Step<Produto>)
    ensures r.result.Success? <==> p.id.Some? && p.id.value in s
    ensures r.result.Failure? ==> r.store == s
    ensures p.id.None? ==> r.result == Failure(NullId)
    ensures p.id.Some? && p.id.value !in s ==> r.result == Failure(NotFound(p.id.value))
    ensures r.result.Success? ==> r.result.value == p && r.store.Keys == s.Keys
    ensures r.result.Success? ==> r.store[p.id.value] == p && OnlyKeyChanged(s, r.store, p.id.value)
    ensures WellFormed(s) ==> WellFormed(r.store)
  {
    if p.id.None? then Step(Failure(NullId), s)
    else if p.id.value !in s then Step(Failure(NotFound(p.id.value)), s)
    else
      var (saved, s2) := Save(s, p, p.id.value);
      Step(Success(saved), s2)
  }

  /** deletar: remove an existing record; an absent id is "not found". */
  function Deletar(s: Store, id: int): (r: Step<()>)
    ensures r.result.Success? <==> id in s
    ensures r.result.Failure? ==> r.result.error == NotFound(id) && r.store == s
    ensures r.result.Success? ==> r.store.Keys == s.Keys - {id}
    ensures OnlyKeyChanged(s, r.store, id)
    ensures WellFormed(s) ==> WellFormed(r.store)
  {
    if id !in s then Step(Failure(NotFound(id)), s) else Step(Success(()), s - {id})
  }

  /** With an id the store has not used, criar adds exactly one record. */
  lemma CriarAddsOneRecord(s: Store, p: Produto, generated: int)
    requires p.id.None? && generated !in s
    ensures var r := Criar(s, p, generated);
      && r.store.Keys == s.Keys + {generated}
      && |r.store| == |s| + 1
      && OnlyKeyChanged(s, r.store, generated)
  {
  }

  /** What criar stored is what buscarPorId returns for the new id. */
  lemma CriarThenBuscar(s: Store, p: Produto, generated: int)
    requires p.id.None?
    ensures var r := Criar(s, p, generated);
      BuscarPorId(r.store, generated).result == Success(p.(id := Some(generated)))
  {
  }

  /** After criar, listar returns the new record among the others. */
  lemma CriarThenListar(s: Store, p: Produto, generated: int, order: seq<int>)
    requires p.id.None? && generated !in s
    requires Enumerates(order, Criar(s, p, generated).store)
    ensures var l := Listar(Criar(s, p, generated).store, order).result.value;
      && |l| == |s| + 1
      && p.(id := Some(generated)) in l
      && forall k :: k in s ==> s[k] in l
  {
  }

  /** After a successful atualizar, buscarPorId returns the new fields under the same id. */
  lemma AtualizarThenBuscar(s: Store, p: Produto)
    requires p.id.Some? && p.id.value in s
    ensures BuscarPorId(Atualizar(s, p).store, p.id.value).result == Success(p)
  {
  }

  /** After a successful deletar, buscarPorId of that id fails. */
  lemma DeletarThenBuscar(s: Store, id: int)
    requires id in s
    ensures BuscarPorId(Deletar(s, id).store, id).result == Failure(NotFound(id))
  {
  }
}

=== FILE: types.dfy ===
/** The three shapes of a product: the persisted entity, the request payload
    and the response payload. Every field is a nullable Java reference, so
    every field is an Option. Prices are BigDecimal values, modelled exactly
    as reals. */
module Types {
  import opened Wrappers

  /** The persisted entity. `id` stays None until the store assigns one. */
  datatype Produto = Produto(
    id: Option<int>,
    nome: Option<string>,
    ncm: Option<string>,
    descricaoNcm: Option<string>,
    preco: Option<real>,
    quantidade: Option<int>)

  /** The body of POST and PUT: the five payload fields, no id. */
  datatype ProdutoRequest = ProdutoRequest(
    nome: Option<string>,
    ncm: Option<string>,
    descricaoNcm: Option<string>,
    preco: Option<real>,
    quantidade: Option<int>)

  /** The body of POST, GET by id and PUT, and each element of GET-all's list. */
  datatype ProdutoResponse = ProdutoResponse(
    id: Option<int>,
    nome: Option<string>,
    ncm: Option<string>,
    descricaoNcm: Option<string>,
    preco: Option<real>,
    quantidade: Option<int>)
}

=== FILE: validation.dfy ===
/** The field constraints ProdutoRequest declares, as Jakarta Bean Validation's
    built-in constraints. Each constraint is a check on one possibly-null
    value; as in that specification, every constraint except NotNull and
    NotBlank accepts null. Violations collects one entry per violated
    constraint; Valid states the same rules field by field, independently. */
module Validation {
  import opened Wrappers
  import opened Types
  import Decimal

  /** Whitespace for NotBlank: the code points up to U+0020, which is what
      String.trim strips. */
  predicate IsWhitespace(c: char) {
    c <= ' '
  }

  /** The scan NotBlank performs: some character is not whitespace. */
  function HasNonWhitespace(s: string): (r: bool)
    ensures r <==> exists i :: 0 <= i < |s| && !IsWhitespace(s[i])
    decreases |s|
  {
    if |s| == 0 then false
    else if !IsWhitespace(s[0]) then true
    else
      var rest := HasNonWhitespace(s[1..]);
      assert forall i :: 0 <= i < |s| - 1 ==> s[1..][i] == s[i + 1];
      rest
  }

  /** Whole-string match of the regular expression \d{n} (Java's \d is [0-9]). */
  function MatchesDigits(s: string, n: nat): (r: bool)
    ensures r <==> |s| == n && Decimal.AllDigits(s)
    decreases |s|
  {
    if |s| == 0 then n == 0
    else
      var rest := n > 0 && MatchesDigits(s[1..], n - 1);
      assert forall i :: 0 < i < |s| ==> s[i] == s[1..][i - 1];
      Decimal.IsDigit(s[0]) && rest
  }

  // The built-in constraints used by ProdutoRequest.

  predicate NotBlank(v: Option<string>) {
    v.Some? && HasNonWhitespace(v.value)
  }

  predicate Size(v: Option<string>, min: nat, max: nat) {
    v.None? || min <= |v.value| <= max
  }

  predicate PatternDigits(v: Option<string>, n: nat) {
    v.None? || MatchesDigits(v.value, n)
  }

  predicate NotNull<T>(v: Option<T>) {
    v.Some?
  }

  /** DecimalMin with its default inclusive bound. */
  predicate DecimalMin(v: Option<real>, min: real) {
    v.None? || v.value >= min
  }

  predicate Min(v: Option<int>, min: int) {
    v.None? || v.value >= min
  }

  datatype Field = Nome | Ncm | DescricaoNcm | Preco | Quantidade

  /** One violated annotation of the request. */
  datatype Violation =
    | NomeBlank | NomeSize
    | NcmBlank | NcmPattern
    | DescricaoNcmSize
    | PrecoNull | PrecoMin
    | QuantidadeNull | QuantidadeMin

  function FieldOf(v: Violation): Field {
    match v
    case NomeBlank | NomeSize => Nome
    case NcmBlank | NcmPattern => Ncm
    case DescricaoNcmSize => DescricaoNcm
    case PrecoNull | PrecoMin => Preco
    case QuantidadeNull | QuantidadeMin => Quantidade
  }

  /** The message each annotation declares. */
  function Message(v: Violation): string {
    match v
    case NomeBlank => "O nome é obrigatório"
    case NomeSize => "O nome deve ter entre 3 e 100 caracteres"
    case NcmBlank => "O NCM é obrigatório"
    case NcmPattern => "O NCM deve conter exatamente 8 dígitos"
    case DescricaoNcmSize => "A descrição não pode ter mais de 255 caracteres"
    case PrecoNull => "O preço é obrigatório"
    case PrecoMin => "O preço deve ser maior que zero"
    case QuantidadeNull => "A quantidade é obrigatória"
    case QuantidadeMin => "A quantidade não pode ser negativa"
  }

  /** Each constraint carries its own message, so the messages identify the violations. */
  lemma MessagesDistinct(a: Violation, b: Violation)
    ensures Message(a) == Message(b) <==> a == b
  {
  }

  // The rules stated per field, without reference to the annotations.

  predicate NomeValid(v: Option<string>) {
    && v.Some?
    && (exists i :: 0 <= i < |v.value| && !IsWhitespace(v.value[i]))
    && 3 <= |v.value| <= 100
  }

  predicate NcmValid(v: Option<string>) {
    v.Some? && |v.value| == 8 && Decimal.AllDigits(v.value)
  }

  predicate DescricaoNcmValid(v: Option<string>) {
    v.None? || |v.value| <= 255
  }

  predicate PrecoValid(v: Option<real>) {
    v.Some? && v.value >= 0.01
  }

  predicate QuantidadeValid(v: Option<int>) {
    v.Some? && v.value >= 0
  }

  predicate FieldValid(req: ProdutoRequest, f: Field) {
    match f
    case Nome => NomeValid(req.nome)
    case Ncm => NcmValid(req.ncm)
    case DescricaoNcm => DescricaoNcmValid(req.descricaoNcm)
    case Preco => PrecoValid(req.preco)
    case Quantidade => QuantidadeValid(req.quantidade)
  }

  predicate Valid(req: ProdutoRequest) {
    && NomeValid(req.nome)
    && NcmValid(req.ncm)
    && DescricaoNcmValid(req.descricaoNcm)
    && PrecoValid(req.preco)
    && QuantidadeValid(req.quantidade)
  }

  /** When each annotation is broken, stated from the field rules: a null
      value breaks only NotNull and NotBlank. */
  predicate Violated(req: ProdutoRequest, v: Violation) {
    match v
    case NomeBlank =>
      req.nome.None? || forall i :: 0 <= i < |req.nome.value| ==> IsWhitespace(req.nome.value[i])
    case NomeSize => req.nome.Some? && !(3 <= |req.nome.value| <= 100)
    case NcmBlank =>
      req.ncm.None? || forall i :: 0 <= i < |req.ncm.value| ==> IsWhitespace(req.ncm.value[i])
    case NcmPattern => req.ncm.Some? && !(|req.ncm.value| == 8 && Decimal.AllDigits(req.ncm.value))
    case DescricaoNcmSize => req.descricaoNcm.Some? && |req.descricaoNcm.value| > 255
    case PrecoNull => req.preco.None?
    case PrecoMin => req.preco.Some? && req.preco.value < 0.01
    case QuantidadeNull => req.quantidade.None?
    case QuantidadeMin => req.quantidade.Some? && req.quantidade.value < 0
  }

  function Check(ok: bool, v: Violation): seq<Violation> {
    if ok then [] else [v]
  }

  /** The annotations of one field, in declaration order. */
  function FieldViolations(req: ProdutoRequest, f: Field): (vs: seq<Violation>)
    ensures forall v :: v in vs ==> FieldOf(v) == f
    ensures forall v :: FieldOf(v) == f ==> (v in vs <==> Violated(req, v))
    ensures vs == [] <==> FieldValid(req, f)
    ensures forall i, j :: 0 <= i < j < |vs| ==> vs[i] != vs[j]
  {
    match f
    case Nome =>
      Check(NotBlank(req.nome), NomeBlank) + Check(Size(req.nome, 3, 100), NomeSize)
    case Ncm =>
      Check(NotBlank(req.ncm), NcmBlank) + Check(PatternDigits(req.ncm, 8), NcmPattern)
    case DescricaoNcm =>
      Check(Size(req.descricaoNcm, 0, 255), DescricaoNcmSize)
    case Preco =>
      Check(NotNull(req.preco), PrecoNull) + Check(DecimalMin(req.preco, 0.01), PrecoMin)
    case Quantidade =>
      Check(NotNull(req.quantidade), QuantidadeNull) + Check(Min(req.quantidade, 0), QuantidadeMin)
  }

  /** Every violated constraint of the request, field by field. */
  function Violations(req: ProdutoRequest): (vs: seq<Violation>)
    ensures vs == [] <==> Valid(req)
    ensures forall v :: v in vs <==> v in FieldViolations(req, FieldOf(v))
    ensures forall v :: v in vs <==> Violated(req, v)
    ensures forall i, j :: 0 <= i < j < |vs| ==> vs[i] != vs[j]
  {
    var nome := FieldViolations(req, Nome);
    var ncm := FieldViolations(req, Ncm);
    var descricao := FieldViolations(req, DescricaoNcm);
    var preco := FieldViolations(req, Preco);
    var quantidade := FieldViolations(req, Quantidade);
    ConcatDistinct(nome, ncm);
    ConcatDistinct(nome + ncm, descricao);
    ConcatDistinct(nome + ncm + descricao, preco);
    ConcatDistinct(nome + ncm + descricao + preco, quantidade);
    nome + ncm + descricao + preco + quantidade
  }

  /** Two duplicate-free lists with no common element concatenate to a duplicate-free list. */
  lemma ConcatDistinct(a: seq<Violation>, b: seq<Violation>)
    requires forall i, j :: 0 <= i < j < |a| ==> a[i] != a[j]
    requires forall i, j :: 0 <= i < j < |b| ==> b[i] != b[j]
    requires forall v :: v in a ==> v !in b
    ensures forall i, j :: 0 <= i < j < |a + b| ==> (a + b)[i] != (a + b)[j]
  {
    forall i, j | 0 <= i < j < |a + b|
      ensures (a + b)[i] != (a + b)[j]
    {
      if j >= |a| && i < |a| {
        assert (a + b)[i] in a && (a + b)[j] in b;
      }
    }
  }

  /** r and r2 hold the same value in field f. */
  predicate Agree(r: ProdutoRequest, r2: ProdutoRequest, f: Field) {
    match f
    case Nome => r.nome == r2.nome
    case Ncm => r.ncm == r2.ncm
    case DescricaoNcm => r.descricaoNcm == r2.descricaoNcm
    case Preco => r.preco == r2.preco
    case Quantidade => r.quantidade == r2.quantidade
  }

  /** Changing one field changes only that field's violations. */
  lemma FieldIndependence(r: ProdutoRequest, r2: ProdutoRequest, f: Field)
    requires forall g :: g != f ==> Agree(r, r2, g)
    ensures forall v :: FieldOf(v) != f ==> (v in Violations(r) <==> v in Violations(r2))
  {
    forall v | FieldOf(v) != f
      ensures v in Violations(r) <==> v in Violations(r2)
    {
      assert Agree(r, r2, FieldOf(v));
      assert FieldViolations(r, FieldOf(v)) == FieldViolations(r2, FieldOf(v));
    }
  }

  /** Nome: at least one non-blank character and 3..100 characters. */
  lemma NomeExamples()
    ensures !NomeValid(Some("ab")) && NomeValid(Some("abc"))
    ensures !NomeValid(None) && !NomeValid(Some("   "))
  {
    assert !IsWhitespace("abc"[0]);
  }

  /** A blank two-character name violates both of its annotations. */
  lemma BlankShortNomeHasTwoViolations(r: ProdutoRequest)
    requires r.nome == Some("  ")
    ensures FieldViolations(r, Nome) == [NomeBlank, NomeSize]
    ensures NomeBlank in Violations(r) && NomeSize in Violations(r)
  {
  }

  /** A null name breaks NotBlank only: Size accepts null. */
  lemma NullNomeHasOneViolation(r: ProdutoRequest)
    requires r.nome.None?
    ensures FieldViolations(r, Nome) == [NomeBlank]
    ensures NomeBlank in Violations(r) && NomeSize !in Violations(r)
  {
  }

  /** Ncm: exactly eight decimal digits; such a string is never blank. */
  lemma NcmExamples()
    ensures !NcmValid(Some("123")) && !NcmValid(Some("1234567a"))
    ensures NcmValid(Some("84713012"))
  {
    assert !Decimal.IsDigit("1234567a"[7]);
  }

  lemma EightDigitsAreNotBlank(s: string)
    requires MatchesDigits(s, 8)
    ensures NotBlank(Some(s))
  {
    assert !IsWhitespace(s[0]);
  }

  /** DescricaoNcm: optional, at most 255 characters, the empty string allowed. */
  lemma DescricaoNcmExamples(s: string)
    ensures DescricaoNcmValid(None) && DescricaoNcmValid(Some(""))
    ensures DescricaoNcmValid(Some(s)) <==> |s| <= 255
  {
  }

  /** Preco: required and at least 0.01, the bound included. */
  lemma PrecoExamples()
    ensures !PrecoValid(None) && !PrecoValid(Some(0.0)) && PrecoValid(Some(0.01))
    ensures !PrecoValid(Some(0.009))
  {
  }

  /** Quantidade: required and not negative. */
  lemma QuantidadeExamples()
    ensures !QuantidadeValid(None) && !QuantidadeValid(Some(-1)) && QuantidadeValid(Some(0))
  {
  }
}

=== FILE: wrappers.dfy ===
/** Option for a nullable reference, Result for a call that returns or throws. */
module Wrappers {

  datatype Option<+T> = None | Some(value: T)

  datatype Result<+T, +E> = Success(value: T) | Failure(error: E)
}
